=== FILE: README.md ===
# GameRental console: a verified model of its core

`GameRental.java` is the console front-end of a video-game rental store.
It reads lines from the keyboard, validates them and issues SQL against a
database. The tables are Users, Catalog, RentalOrder, TrackingInfo and
GamesInOrder.

This project models the parts of that class that decide what gets written:

- the input validators (`validatePhoneNumber`, `validateInteger`, `validateGameID`);
- the ID allocators (`createOrderID`, `createTrackingID`);
- the order workflow (`placeOrder`);
- the catalog query construction (`changeSort`, `filterCatalog`);
- the favourite-games update (`changeFavoriteGames`);
- the gates of account creation (`CreateUser`).

## How the model is built

Keyboard input is a `seq<string>` of lines. Reading past its end stands
for `BufferedReader.readLine` returning `null`. The model follows that
null to wherever the code dereferences it:

- `validateInteger`, `validatePhoneNumber`, `length()` and `switch` throw
  NullPointerException. The handler around the whole operation then
  returns, and nothing is written.
- `validateGameID` catches the exception itself and answers `false`. The
  game-ID prompt therefore re-prompts forever (`EndlessReprompt`).
- String concatenation appends the text `"null"`.

The database tables are fields of the class `GameRental`: a map of
users, a set of catalog game IDs, and sequences of order, tracking and
order-line rows. The operations that write those fields are methods
(`PlaceOrder`, `CreateUser`, `ChangeFavoriteGames`). Each method is proved
equal to a specification function of the old state and the input lines
(`Checkout`, `Register`, `FavoriteGames`). The lemmas about those functions
state what the code promises: which rows a placed order writes, that
nothing is written otherwise, how the y/n answer decides, and what a new
account looks like.

`Integer.parseInt` is modelled exactly for ASCII digits with an optional
sign and the 32-bit range. Java `int` addition wraps, both in the ID
allocators' `+ 1` and in the `totalCopies` accumulator. `ORDER BY <id> DESC`
on a text column is the code-point lexicographic maximum.

Some behaviours of the code are easy to overlook. The model keeps them as
written:

- **Duplicate game IDs in one cart.** The price query returns one row per
  distinct game ID, but the pricing loop reads one row per cart entry. A
  cart that names a game twice therefore makes `priceResult.get(i)` throw,
  and the order aborts before confirmation. No order ever holds the same
  game twice.
- **Copies.** A count of `0` passes `validateInteger` and is accepted. No
  check asks for a positive quantity.
- **Game IDs.** Only the length (8) and the `game` prefix are checked, not
  that the last four characters are digits.
- **Passwords.** A password is accepted only when it is shorter than 30
  characters, so at most 29.
- **Empty ID tables.** For an empty table (or an unparsable suffix) the
  allocator catches the exception and returns `null`. The order is then
  written with the ID text `"null"`.

## Model

| member | source | states |
|---|---|---|
| Validation.ValidatePhoneNumber | cs166_project_phase3/java/src/GameRental.java:726-743 | true exactly when the text has 12 characters, '-' at positions 3 and 7 and a decimal digit everywhere else |
| Validation.ValidateInteger | cs166_project_phase3/java/src/GameRental.java:763-773 | true exactly when the text is non-empty and every character is a decimal digit |
| Validation.ValidateIntegerExamples | cs166_project_phase3/java/src/GameRental.java:763-773 | "", "3a" and "-3" are rejected; "0" and "007" are accepted, so a zero count passes |
| Validation.ValidateGameID | cs166_project_phase3/java/src/GameRental.java:745-761 | validateGameID: the length, then the prefix, then catalog membership; its meaning is stated by GameIDAccepted and GameIDFormatCheckedFirst |
| Validation.UsernameAccepted | cs166_project_phase3/java/src/GameRental.java:368-376 | the username gate of CreateUser (at most 50 characters, not yet taken); Profile.RegisteredRow states that a new login passed it |
| Validation.PasswordAccepted | cs166_project_phase3/java/src/GameRental.java:388-392 | the password gate of CreateUser (re-prompt while 30 characters or more); Profile.RegisteredRow states that a new password passed it |
| Validation.GameIDAccepted | cs166_project_phase3/java/src/GameRental.java:745-761 | a game ID is accepted exactly when it has 8 characters, starts with "game" and is in the catalog |
| Validation.GameIDFormatCheckedFirst | cs166_project_phase3/java/src/GameRental.java:747-756 | a badly formatted ID is rejected, and the answer does not depend on the catalog at all |
| Validation.GameIDSuffixUnchecked | cs166_project_phase3/java/src/GameRental.java:747-752 | "gameABCD" is accepted when catalogued although its last four characters are not digits |
| Console.Check | cs166_project_phase3/java/src/GameRental.java:569-584 | the validation applied by each prompt agrees with what that prompt accepts |
| Console.NextAccepted | cs166_project_phase3/java/src/GameRental.java:570-575 | a re-prompt loop settles on the first accepted line at or after its start; every line it skips is rejected; None only when no later line is accepted |
| Console.ReadUntilAccepted | cs166_project_phase3/java/src/GameRental.java:555-560 | the read-validate-reread loop returns the line NextAccepted names |
| JavaText.ParseInt | cs166_project_phase3/java/src/GameRental.java:561 | Integer.parseInt: a result, when there is one, is an int; ParseIntShape states which texts are rejected, ParseDigitString and ParseIntToString which texts parse and to what |
| JavaText.ParseIntShape | cs166_project_phase3/java/src/GameRental.java:561 | a text parses only when it is an optional sign followed by one or more decimal digits; every other text is rejected (the NumberFormatException) |
| JavaText.IntToString | cs166_project_phase3/java/src/GameRental.java:991-992 | an int printed as Java concatenates it; ParseIntToString states that parseInt reads it back |
| JavaText.ParseIntToString | cs166_project_phase3/java/src/GameRental.java:990-992 | Integer.parseInt reads back every int its printed form shows |
| JavaText.ParseDigitString | cs166_project_phase3/java/src/GameRental.java:586 | a digit string accepted by validateInteger parses exactly when its value fits an int, to that value |
| JavaText.AddInt | cs166_project_phase3/java/src/GameRental.java:991 | int addition always yields an int, and the exact sum whenever that sum fits |
| JavaText.AddIntOverflow | cs166_project_phase3/java/src/GameRental.java:991 | the largest int plus one wraps to the smallest |
| JavaText.IntSumExact | cs166_project_phase3/java/src/GameRental.java:605-609 | with non-negative counts whose true sum fits an int, the int accumulator yields the true sum |
| JavaText.JoinLoopStep | cs166_project_phase3/java/src/GameRental.java:890-896 | one round of an append-then-separator loop extends the joined text by exactly one entry |
| JavaText.JoinSegments | cs166_project_phase3/java/src/GameRental.java:890-896 | a joined text is each entry at its offset, with exactly one separator between neighbours and nothing after the last |
| IdAllocator.LexLeTotal | cs166_project_phase3/java/src/GameRental.java:988 | any two IDs are comparable in the text order the query sorts by |
| IdAllocator.LexLeTransitive | cs166_project_phase3/java/src/GameRental.java:988 | that order is transitive |
| IdAllocator.MaxId | cs166_project_phase3/java/src/GameRental.java:988-990 | the selected row is absent exactly for an empty table, and otherwise is one of the table's IDs |
| IdAllocator.MaxIdIsGreatest | cs166_project_phase3/java/src/GameRental.java:988 | the selected ID is not below any ID of the table |
| IdAllocator.NextId | cs166_project_phase3/java/src/GameRental.java:988-992 | an ID is produced only from a non-empty table and always starts with the prefix; NextIdRoundTrip states what follows the prefix |
| IdAllocator.CreateOrderID | cs166_project_phase3/java/src/GameRental.java:986-997 | a new order ID comes only from a non-empty RentalOrder table and starts with "gamerentalorder"; EmptyTableGivesNull and CreateIDRoundTrip state the rest |
| IdAllocator.CreateTrackingID | cs166_project_phase3/java/src/GameRental.java:999-1010 | a new tracking ID comes only from a non-empty TrackingInfo table and starts with "trackingid"; EmptyTableGivesNull and CreateIDRoundTrip state the rest |
| IdAllocator.EmptyTableGivesNull | cs166_project_phase3/java/src/GameRental.java:989-996 | with no rows, both allocators return null |
| IdAllocator.NextIdRoundTrip | cs166_project_phase3/java/src/GameRental.java:990-992 | when the selected ID is the prefix and a printed int, the next ID is the prefix and that int plus one, as Java adds |
| IdAllocator.CreateIDRoundTrip | cs166_project_phase3/java/src/GameRental.java:986-1010 | the cut lengths 15 and 10 match "gamerentalorder" and "trackingid": ID n is followed by ID n + 1 |
| IdAllocator.OrderIdWraps | cs166_project_phase3/java/src/GameRental.java:991-992 | after the largest int the next order ID carries the smallest int |
| IdAllocator.OrderIdCollision | cs166_project_phase3/java/src/GameRental.java:988-992 | with orders 9 and 10 present, order 9 is selected and ID 10 is produced again |
| CatalogView.ChangeSort | cs166_project_phase3/java/src/GameRental.java:969-983 | the result is "ASC" or "DESC", and "ASC" exactly when the old order was "DESC" |
| CatalogView.SortAlternates | cs166_project_phase3/java/src/GameRental.java:969-978 | from "DESC", the order is "ASC" exactly after an odd number of changes |
| CatalogView.FilterFor | cs166_project_phase3/java/src/GameRental.java:914-928 | the branch taken: the full catalog exactly for a negative price or for no genre with price 0; a genre branch carries the non-empty genre; a price branch carries the positive price |
| CatalogView.WhereClause | cs166_project_phase3/java/src/GameRental.java:914-928 | the WHERE text is empty exactly for the full catalog and otherwise starts with " WHERE "; a genre filter starts with " WHERE genre = '<genre>'" and the genre-only filter has nothing after it; a price filter ends with "price < <price text>" |
| CatalogView.FilterMeaning | cs166_project_phase3/java/src/GameRental.java:914-928 | a row is shown exactly when it matches the genre (if one is set and the price is not negative) and lies below a positive price |
| CatalogView.FilterCombines | cs166_project_phase3/java/src/GameRental.java:914-925 | with both settings in effect, the view is the intersection of the genre-only and price-only views |
| CatalogView.NegativePriceShowsAll | cs166_project_phase3/java/src/GameRental.java:914-928 | a negative price falls through every branch, so the full catalog is shown even with a genre set |
| CatalogView.CatalogQuery | cs166_project_phase3/java/src/GameRental.java:913-929 | the query starts with the catalog SELECT and ends with "ORDER BY price <sort>"; what lies between is the WHERE clause of the filter chosen for the genre and price, empty exactly for the full catalog |
| OrderWorkflow.CollectCart | cs166_project_phase3/java/src/GameRental.java:566-587 | a cart loop that stops early stops on an endless re-prompt or an abort, never with an order |
| OrderWorkflow.HaltedPersists | cs166_project_phase3/java/src/GameRental.java:566-587 | once the cart loop has stopped, further rounds change nothing |
| OrderWorkflow.RoundAppends | cs166_project_phase3/java/src/GameRental.java:567-586 | a completed round reads the first line from its start that validateGameID accepts, then the first later line validateInteger accepts, appends exactly that game ID with that line's parsed, non-negative count, and resumes after the count line |
| OrderWorkflow.CartFromInput | cs166_project_phase3/java/src/GameRental.java:564-587 | a completed cart of k rounds has k lines and is read as ReadFrom describes: line i holds the game ID and parsed count typed in round i, rounds in typed order, each starting where the previous one ended |
| OrderWorkflow.ReadsCartSnoc | cs166_project_phase3/java/src/GameRental.java:564-587 | reading one more (game line, count line) round after a cart read this way appends that round's line |
| OrderWorkflow.RoundExtendsRead | cs166_project_phase3/java/src/GameRental.java:566-587 | one more completed round of the cart loop extends such a reading by exactly one line and moves past the count line |
| OrderWorkflow.ReadCartValid | cs166_project_phase3/java/src/GameRental.java:567-586 | every line of a cart read this way carries a game ID validateGameID accepted and a non-negative count |
| OrderWorkflow.FewerRowsIffDuplicate | cs166_project_phase3/java/src/GameRental.java:590-598 | the price query returns fewer rows than the cart has entries exactly when some game ID was entered twice |
| OrderWorkflow.NoWritesUnlessPlaced | cs166_project_phase3/java/src/GameRental.java:545-666 | every outcome other than a placed order, including cancelling, leaves all three tables unchanged |
| OrderWorkflow.Checkout | cs166_project_phase3/java/src/GameRental.java:545-666 | placeOrder from the count prompt to the inserts; NoWritesUnlessPlaced, ConfirmationDecides, PlacedOrder and PlacedCartRead state its properties |
| OrderWorkflow.FillAndPrice | cs166_project_phase3/java/src/GameRental.java:563-659 | the cart loop, then pricing; states nothing itself, its outcomes are covered by the Checkout lemmas |
| OrderWorkflow.CartRound | cs166_project_phase3/java/src/GameRental.java:567-586 | one round of the cart loop; a stopped round stops on an endless re-prompt or an abort; RoundAppends states a completed one |
| OrderWorkflow.Price | cs166_project_phase3/java/src/GameRental.java:589-612 | an empty cart or a duplicate game aborts before confirmation; FewerRowsIffDuplicate ties the row count to duplicates |
| OrderWorkflow.Confirm | cs166_project_phase3/java/src/GameRental.java:614-625 | the y/n loop; ConfirmationDecides states how the answer decides |
| OrderWorkflow.Persist | cs166_project_phase3/java/src/GameRental.java:627-659 | the three inserts; PlacedOrder states the rows they add |
| OrderWorkflow.TotalCopies | cs166_project_phase3/java/src/GameRental.java:605-609 | the int accumulator over the counts; IntSumExact and PlacedOrder state when it is exact |
| OrderWorkflow.ConfirmationDecides | cs166_project_phase3/java/src/GameRental.java:614-625 | after a valid cart, the first "y" or "n" typed decides: "n" cancels with no writes, "y" runs exactly the inserts for that cart, and any other answer is skipped |
| OrderWorkflow.PlacedPassedPricing | cs166_project_phase3/java/src/GameRental.java:545-625 | a placed order read a count, completed the cart loop with at least one line and no game twice, and then ran the inserts for that cart |
| OrderWorkflow.PricedCart | cs166_project_phase3/java/src/GameRental.java:589-609 | a cart past the pricing checks has no game twice, only accepted game IDs and non-negative counts, and an exact total whenever the true sum fits an int |
| OrderWorkflow.PlacedOrder | cs166_project_phase3/java/src/GameRental.java:627-659 | a placed order has one or more distinct catalogued games; it adds one RentalOrder row with the new ID, the user and the total copies, one "Order Received"/"Los Angeles,CA"/"USPS" TrackingInfo row for that ID, and one GamesInOrder row per entry in order; the total is exact when it fits an int |
| OrderWorkflow.PlacedCartRead | cs166_project_phase3/java/src/GameRental.java:552-587 | a placed order's cart is the one collected for the first count validateInteger accepted: exactly that many lines, line i holding the game ID and count typed in round i, in typed order |
| OrderWorkflow.StatementLayout | cs166_project_phase3/java/src/GameRental.java:652-658 | the GamesInOrder statement is the INSERT header, then each entry's tuple at its offset, with ", " between tuples and nothing after the last |
| GameRentalStore.ReadEntry | cs166_project_phase3/java/src/GameRental.java:567-586 | one round of the cart loop does what CartRound says: it either stops with the round's outcome or appends one line |
| GameRentalStore.ReadCart | cs166_project_phase3/java/src/GameRental.java:564-587 | the cart loop yields exactly what CollectCart says for the entered count, including where it stops |
| GameRentalStore.TotalOf | cs166_project_phase3/java/src/GameRental.java:605-609 | the totalCopies loop computes the wrapped int sum of the counts |
| GameRentalStore.StatementText | cs166_project_phase3/java/src/GameRental.java:652-658 | the insert loop builds exactly the statement whose layout StatementLayout describes |
| GameRentalStore.GameRental.PlaceOrder | cs166_project_phase3/java/src/GameRental.java:545-666 | the outcome and the new tables are those Checkout gives for the old tables and the input; a placed order's statement text is the GamesInOrder statement |
| GameRentalStore.GameRental.FillCart | cs166_project_phase3/java/src/GameRental.java:563-659 | the cart loop followed by pricing and confirmation updates the tables as FillAndPrice says |
| GameRentalStore.GameRental.PriceAndConfirm | cs166_project_phase3/java/src/GameRental.java:589-659 | an empty cart or a duplicate game aborts; otherwise the y/n loop cancels or goes on to the inserts, as Price says |
| GameRentalStore.GameRental.Insert | cs166_project_phase3/java/src/GameRental.java:627-659 | the three inserts change the tables as Persist says and always place the order |
| GameRentalStore.GameRental.constructor | cs166_project_phase3/java/src/GameRental.java:51-67 | opening the database: the tables start as the database holds them, with every user row under its own login (Valid) |
| GameRentalStore.GameRental.CreateUser | cs166_project_phase3/java/src/GameRental.java:355-419 | an account is added, under its login, exactly when Register yields one; otherwise the users are unchanged; every row stays under its own login |
| GameRentalStore.GameRental.ChangeFavoriteGames | cs166_project_phase3/java/src/GameRental.java:882-907 | the stored text is what FavoriteGames says; only the named user's row changes, and only when the count parsed; every row stays under its own login |
| Profile.RegisteredRow | cs166_project_phase3/java/src/GameRental.java:368-410 | a new account has a login of at most 50 characters not yet taken, a password of at most 29 characters, a "+1-" phone number of the DDD-DDD-DDDD shape, the customer role, no favourite games and no overdue games; login, password and phone are the first typed lines each gate accepts, in that order, with every earlier line rejected by its gate |
| Profile.Register | cs166_project_phase3/java/src/GameRental.java:355-419 | CreateUser's prompts as a function of the input lines; RegisteredRow states what a new account holds |
| Profile.EnteredGames | cs166_project_phase3/java/src/GameRental.java:890-896 | the games changeFavoriteGames reads: one per counted round, none for a count of zero or less |
| Profile.FavoriteGames | cs166_project_phase3/java/src/GameRental.java:882-907 | an update happens exactly when there is a first line and it parses as an int; FavoriteGamesEntries states the text |
| Profile.FavoriteGamesEntries | cs166_project_phase3/java/src/GameRental.java:886-899 | the stored text holds the entered games in order separated by ", " with nothing after the last, a missing line as "null", and is empty for a count of zero or less |

## Left out

- JDBC, the SQL text of the queries other than the catalog query and the GamesInOrder insert, and console output are not modelled. Query results are computed from the in-memory tables.
- Prices and `totalPrice`: Double arithmetic and `Double.parseDouble` are floating point. The RentalOrder row carries no price, and the summary printout is not modelled.
- CatalogView.CatalogQuery: the price is printed by Java's Double-to-text conversion, which is a parameter (`priceText`) here. A `null` genre or price from `filterGenre`/`filterPrice` (a NullPointerException) is not modelled.
- CatalogView.FilterFor: the price is modelled as a `real`, so the NaN and ±Infinity values `Double.parseDouble` can produce are not represented. With a NaN price every comparison is false, so the code shows the full catalog even with a genre set; CatalogView.FilterMeaning does not cover that case.
- The clock: the order timestamp and the due date thirty days later are the parameters `now` and `due`.
- `Character.isDigit` accepts Unicode digits. The model accepts only ASCII '0'..'9' in the validators and in `Integer.parseInt`.
- String lengths are counted in `char`s, which match Java's UTF-16 lengths only for characters of the Basic Multilingual Plane.
- Database collation: `ORDER BY ... DESC` on text is modelled as code-point order.
- Key and foreign-key constraints are not modelled. A repeated ID (as in IdAllocator.OrderIdCollision) or a repeated username would make the database refuse an insert. The model writes the row.
- A failing insert after an earlier one succeeded (the three writes are not one transaction) is not modelled; inserts always succeed.
- SQL injection through quotes in the entered text is not modelled; the text is kept verbatim.
- The game-ID prompt after the input has ended loops forever in the code. The model returns the outcome `EndlessReprompt` instead.
- `gameIDs` and `numCopies` are two parallel lists in the code and one list of (gameID, copies) lines here. They are always appended together, so the model keeps them paired.
- The menus, `LogIn`, `updateProfile`, `changePassword`, `changePhoneNumber`, `updateCatalog`, `updateUser`, `checkUserRole`, `changeGameName` and the empty view stubs are not part of this model.
- OrderWorkflow.CollectCart: its own contract only bounds how the loop stops; what a completed cart holds is stated by the lemmas OrderWorkflow.RoundAppends and OrderWorkflow.CartFromInput.

=== FILE: catalog_view.dfy ===
/**
 * The catalog view's query construction: changeSort flips the price order,
 * filterCatalog picks a WHERE clause from the genre and maximum price the
 * user has set and appends `ORDER BY price <sort>`.
 */
module CatalogView {

  /** changeSort: "DESC" becomes "ASC"; anything else becomes "DESC". */
  function ChangeSort(sort: string): (r: string)
    ensures r == "ASC" || r == "DESC"
    ensures r == "ASC" <==> sort == "DESC"
  {
    if sort == "DESC" then "ASC" else "DESC"
  }

  /** The sort order after the "Change Sort" option was chosen `k` times. */
  function SortAfter(sort: string, k: nat): string {
    if k == 0 then sort else ChangeSort(SortAfter(sort, k - 1))
  }

  /** From the initial "DESC", the order is ascending exactly after an odd number of changes. */
  lemma {:induction false} SortAlternates(k: nat)
    ensures SortAfter("DESC", k) == if k % 2 == 1 then "ASC" else "DESC"
  {
    if k > 0 {
      SortAlternates(k - 1);
    }
  }

  /** The WHERE clause filterCatalog chooses; the price is the Double the user set. */
  datatype CatalogFilter =
    | GenreBelowPrice(genre: string, maxPrice: real)
    | GenreOnly(genre: string)
    | BelowPrice(maxPrice: real)
    | FullCatalog

  function FilterFor(genre: string, price: real): (f: CatalogFilter)
    ensures f.FullCatalog? <==> price < 0.0 || (genre == "" && price == 0.0)
    ensures f.GenreBelowPrice? || f.GenreOnly? ==> f.genre == genre && genre != ""
    ensures f.GenreBelowPrice? || f.BelowPrice? ==> f.maxPrice == price && 0.0 < price
  {
    if genre != "" && price > 0.0 then GenreBelowPrice(genre, price)
    else if genre != "" && price == 0.0 then GenreOnly(genre)
    else if genre == "" && price > 0.0 then BelowPrice(price)
    else FullCatalog
  }

  datatype CatalogEntry = CatalogEntry(gameID: string, gameName: string, genre: string, price: real, description: string)

  /** The rows a WHERE clause keeps. */
  predicate Shows(f: CatalogFilter, e: CatalogEntry) {
    match f
    case GenreBelowPrice(g, p) => e.genre == g && e.price < p
    case GenreOnly(g) => e.genre == g
    case BelowPrice(p) => e.price < p
    case FullCatalog => true
  }

  /**
   * What the catalog view shows, stated per setting: the genre restricts the
   * rows when it is set and the price is not negative; a positive price keeps
   * the rows strictly below it.
   */
  lemma FilterMeaning(genre: string, price: real, e: CatalogEntry)
    ensures Shows(FilterFor(genre, price), e) <==>
              (genre != "" && price >= 0.0 ==> e.genre == genre) && (price > 0.0 ==> e.price < price)
  {
  }

  /** With both settings in effect the view is the intersection of the two single filters. */
  lemma FilterCombines(genre: string, price: real, e: CatalogEntry)
    requires genre != "" && price > 0.0
    ensures Shows(FilterFor(genre, price), e) <==> Shows(FilterFor(genre, 0.0), e) && Shows(FilterFor("", price), e)
  {
  }

  /** A negative price falls through every branch, so a set genre is ignored too. */
  lemma NegativePriceShowsAll(genre: string, price: real)
    requires price < 0.0
    ensures FilterFor(genre, price) == FullCatalog
  {
  }

  const CatalogSelect: string := "SELECT gameID, gameName, genre, price, description FROM Catalog"

  /**
   * The text of the catalog query. `priceText` is the price as Java prints a
   * Double, which this model does not compute.
   */
  function WhereClause(f: CatalogFilter, priceText: string): (w: string)
    ensures w == "" <==> f.FullCatalog?
    ensures !f.FullCatalog? ==> " WHERE " <= w
    ensures f.GenreBelowPrice? || f.GenreOnly? ==> " WHERE genre = '" + f.genre + "'" <= w
    ensures f.GenreBelowPrice? || f.BelowPrice? ==>
              |"price < " + priceText| <= |w| && w[|w| - |"price < " + priceText|..] == "price < " + priceText
    ensures f.GenreOnly? ==> |w| == |" WHERE genre = '" + f.genre + "'"|
  {
    match f
    case GenreBelowPrice(g, _) => " WHERE genre = '" + g + "' AND price < " + priceText
    case GenreOnly(g) => " WHERE genre = '" + g + "'"
    case BelowPrice(_) => " WHERE price < " + priceText
    case FullCatalog => ""
  }

  function CatalogQuery(genre: string, price: real, priceText: string, sort: string): (q: string)
    ensures CatalogSelect <= q
    ensures |" ORDER BY price " + sort| <= |q|
    ensures q[|q| - |" ORDER BY price " + sort|..] == " ORDER BY price " + sort
    ensures FilterFor(genre, price) == FullCatalog <==> q == CatalogSelect + " ORDER BY price " + sort
    ensures |CatalogSelect| <= |q| - |" ORDER BY price " + sort|
    ensures q[|CatalogSelect|..|q| - |" ORDER BY price " + sort|] == WhereClause(FilterFor(genre, price), priceText)
  {
    CatalogSelect + WhereClause(FilterFor(genre, price), priceText) + " ORDER BY price " + sort
  }
}

=== FILE: console.dfy ===
/**
 * The console's re-prompt loops. Every prompt of the class reads a line,
 * validates it, and while it is rejected prints a message and reads another.
 * Keyboard input is a given sequence of lines; reading past its end is what
 * `BufferedReader.readLine` returning `null` stands for.
 */
module Console {
  import opened Wrappers
  import opened Validation

  /** The validators the re-prompt loops apply. */
  datatype Prompt =
    | CountPrompt                          // validateInteger
    | GameIDPrompt(catalog: set<string>)   // validateGameID against the catalog
    | ConfirmPrompt                        // the y/n switch of placeOrder
    | UsernamePrompt(taken: set<string>)   // length and availability in CreateUser
    | PasswordPrompt                       // length in CreateUser
    | PhonePrompt                          // validatePhoneNumber

  predicate Accepts(p: Prompt, line: string) {
    match p
    case CountPrompt => IsDigitString(line)
    case GameIDPrompt(catalog) => ValidateGameID(catalog, line)
    case ConfirmPrompt => line == "y" || line == "n"
    case UsernamePrompt(taken) => UsernameAccepted(taken, line)
    case PasswordPrompt => PasswordAccepted(line)
    case PhonePrompt => PhoneShape(line)
  }

  /**
   * The index of the line a re-prompt loop started at `from` settles on: the
   * first one the prompt accepts. None when the input ends first.
   */
  function NextAccepted(input: seq<string>, from: nat, p: Prompt): (r: Option<nat>)
    decreases |input| - from
    ensures r.Some? ==> from <= r.value < |input| && Accepts(p, input[r.value])
    ensures forall j :: from <= j < |input| && (r.None? || j < r.value) ==> !Accepts(p, input[j])
  {
    if from >= |input| then None
    else if Accepts(p, input[from]) then Some(from)
    else NextAccepted(input, from + 1, p)
  }

  /** One validation, using the scanning validators where the class has them. */
  method Check(p: Prompt, line: string) returns (ok: bool)
    ensures ok <==> Accepts(p, line)
  {
    match p {
      case CountPrompt => ok := ValidateInteger(line);
      case PhonePrompt => ok := ValidatePhoneNumber(line);
      case GameIDPrompt(catalog) => ok := ValidateGameID(catalog, line);
      case ConfirmPrompt => ok := line == "y" || line == "n";
      case UsernamePrompt(taken) => ok := UsernameAccepted(taken, line);
      case PasswordPrompt => ok := PasswordAccepted(line);
    }
  }

  /** A re-prompt loop: read, validate, and read again while the line is rejected. */
  method ReadUntilAccepted(input: seq<string>, from: nat, p: Prompt) returns (at: Option<nat>)
    ensures at == NextAccepted(input, from, p)
  {
    var pos := from;
    while pos < |input|
      invariant from <= pos
      invariant NextAccepted(input, from, p) == NextAccepted(input, pos, p)
      decreases |input| - pos
    {
      var ok := Check(p, input[pos]);
      if ok {
        return Some(pos);
      }
      pos := pos + 1;
    }
    return None;
  }
}

=== FILE: game_rental.dfy ===
/**
 * The GameRental console class over an in-memory store. The database tables
 * the class reaches through JDBC are fields; each operation reads its
 * console lines from a given sequence and is proved to do what the
 * corresponding specification function says.
 */
module GameRentalStore {
  import opened Wrappers
  import opened JavaText
  import opened Validation
  import opened Console
  import opened IdAllocator
  import opened OrderWorkflow
  import opened Profile

  /**
   * One round of placeOrder's cart loop from line `pos`: re-prompt until
   * validateGameID accepts a game ID, then until validateInteger accepts a
   * count, and parse it. `i` rounds have collected `cart` so far.
   */
  method ReadEntry(input: seq<string>, catalog: set<string>, ghost start: nat, ghost i: nat,
                   ghost cart: seq<CartLine>, pos: nat)
    returns (halted: Option<OrderOutcome>, line: CartLine, next: nat)
    requires CollectCart(input, catalog, start, i) == Collected(cart, pos)
    ensures halted.Some? ==> CollectCart(input, catalog, start, i + 1) == Halted(halted.value)
    ensures halted.None? ==> CollectCart(input, catalog, start, i + 1) == Collected(cart + [line], next)
  {
    assert CollectCart(input, catalog, start, i + 1) == CartRound(input, catalog, cart, pos);
    line, next := CartLine("", 0), pos;
    var g := ReadUntilAccepted(input, pos, GameIDPrompt(catalog));
    if g.None? {
      halted := Some(EndlessReprompt);
    } else {
      var c := ReadUntilAccepted(input, g.value + 1, CountPrompt);
      if c.None? {
        halted := Some(Aborted(InputEnded));
      } else {
        var copies := ParseInt(input[c.value]);
        if copies.None? {
          halted := Some(Aborted(NotAnInt));
        } else {
          halted, line, next := None, CartLine(input[g.value], copies.value), c.value + 1;
          assert CollectCart(input, catalog, start, i + 1) == Collected(cart + [line], next);
        }
      }
    }
  }

  /** The cart loop of placeOrder: `numGames` rounds, each adding one (gameID, copies) line. */
  method ReadCart(input: seq<string>, catalog: set<string>, start: nat, numGames: int)
    returns (halted: Option<OrderOutcome>, cart: seq<CartLine>, pos: nat)
    ensures CollectCart(input, catalog, start, numGames) ==
              if halted.Some? then Halted(halted.value) else Collected(cart, pos)
  {
    var lines: seq<CartLine> := [];
    var at: nat := start;
    var i: nat := 0;
    while i < numGames
      invariant i == 0 || i <= numGames
      invariant CollectCart(input, catalog, start, i) == Collected(lines, at)
    {
      var stop, line, next := ReadEntry(input, catalog, start, i, lines, at);
      if stop.Some? {
        HaltedAtRound(input, catalog, start, i, numGames, stop.value);
        return stop, lines, at;
      }
      lines := lines + [line];
      at := next;
      i := i + 1;
    }
    CollectedAtEnd(input, catalog, start, i, numGames);
    return None, lines, at;
  }

  lemma HaltedAtRound(input: seq<string>, catalog: set<string>, start: nat, i: nat, numGames: int, o: OrderOutcome)
    requires i < numGames
    requires CollectCart(input, catalog, start, i + 1) == Halted(o)
    ensures CollectCart(input, catalog, start, numGames) == Halted(o)
  {
    HaltedPersists(input, catalog, start, i + 1, numGames);
  }

  lemma CollectedAtEnd(input: seq<string>, catalog: set<string>, start: nat, i: nat, numGames: int)
    requires i == 0 || i == numGames
    requires numGames <= i
    ensures CollectCart(input, catalog, start, numGames) == CollectCart(input, catalog, start, i)
  {
  }

  /** The totalCopies loop: each count added into a Java int. */
  method TotalOf(numCopies: seq<int>) returns (total: int)
    ensures total == IntSum(numCopies)
  {
    total := 0;
    for k := 0 to |numCopies|
      invariant total == IntSum(numCopies[..k])
    {
      assert numCopies[..k + 1][..k] == numCopies[..k];
      total := AddInt(total, numCopies[k]);
    }
    assert numCopies[..|numCopies|] == numCopies;
  }

  /**
   * The GamesInOrder statement as the insert loop builds it: a tuple per
   * entry, and ", " after every tuple but the last.
   */
  method StatementText(rentalID: string, cart: seq<CartLine>) returns (statement: string)
    ensures statement == GamesInOrderStatement(rentalID, cart)
  {
    ghost var tuples := LineTuples(rentalID, cart);
    var numGames := |cart|;
    statement := "INSERT INTO GamesInOrder VALUES";
    for k := 0 to numGames
      invariant statement == GamesInOrderInsert + Join(tuples[..k], ", ") + (if 0 < k < numGames then ", " else "")
    {
      var tuple := "('" + rentalID + "', '" + cart[k].gameID + "', " + IntToString(cart[k].copies) + ")";
      assert tuple == tuples[k];
      JoinLoopStep(tuples, k, ", ");
      ghost var sep := if 0 < k then ", " else "";
      AppendRegroups(GamesInOrderInsert, Join(tuples[..k], ", "), sep, tuple);
      statement := statement + tuple;
      if k < numGames - 1 {
        statement := statement + ", ";
      }
    }
    assert tuples[..numGames] == tuples;
  }

  lemma AppendRegroups(a: string, b: string, c: string, d: string)
    ensures a + b + c + d == a + (b + c + d)
  {
  }

  /** The Users table is keyed by login: every row sits under its own login. */
  predicate KeyedByLogin(users: map<string, UserRow>) {
    forall k :: k in users ==> users[k].login == k
  }

  class GameRental {
    var users: map<string, UserRow>
    var catalog: set<string>
    var rentalOrders: seq<RentalOrderRow>
    var trackingInfo: seq<TrackingRow>
    var gamesInOrder: seq<GameInOrderRow>

    constructor (users: map<string, UserRow>, catalog: set<string>, tables: Tables)
      requires KeyedByLogin(users)
      ensures Valid()
      ensures this.users == users && this.catalog == catalog && OrderTables() == tables
    {
      this.users := users;
      this.catalog := catalog;
      rentalOrders := tables.orders;
      trackingInfo := tables.tracking;
      gamesInOrder := tables.lines;
    }

    predicate Valid()
      reads this
    {
      KeyedByLogin(users)
    }

    function OrderTables(): Tables
      reads this
    {
      Tables(rentalOrders, trackingInfo, gamesInOrder)
    }

    /**
     * placeOrder. `now` and `due` stand for the clock readings; `statement`
     * is the GamesInOrder INSERT text the code builds.
     */
    method PlaceOrder(user: string, input: seq<string>, now: string, due: string)
      returns (outcome: OrderOutcome, statement: string)
      modifies this`rentalOrders, this`trackingInfo, this`gamesInOrder
      ensures (outcome, OrderTables()) == Checkout(old(OrderTables()), catalog, user, input, now, due)
      ensures outcome.Placed? ==> statement == GamesInOrderStatement(outcome.rentalID, outcome.cart)
    {
      statement := "";
      var at := ReadUntilAccepted(input, 0, CountPrompt);
      if at.None? {
        return Aborted(InputEnded), statement;
      }
      var parsed := ParseInt(input[at.value]);
      if parsed.None? {
        return Aborted(NotAnInt), statement;
      }
      outcome, statement := FillCart(user, input, at.value + 1, parsed.value, now, due);
    }

    /** The cart loop for `numGames` entries from line `from`, then the rest of placeOrder. */
    method FillCart(user: string, input: seq<string>, from: nat, numGames: int, now: string, due: string)
      returns (outcome: OrderOutcome, statement: string)
      modifies this`rentalOrders, this`trackingInfo, this`gamesInOrder
      ensures (outcome, OrderTables()) == FillAndPrice(old(OrderTables()), catalog, user, input, from, numGames, now, due)
      ensures outcome.Placed? ==> statement == GamesInOrderStatement(outcome.rentalID, outcome.cart)
    {
      statement := "";
      var halted, cart, pos := ReadCart(input, catalog, from, numGames);
      if halted.Some? {
        return halted.value, statement;
      }
      outcome, statement := PriceAndConfirm(user, input, cart, pos, now, due);
    }

    /**
     * The price query, the summary and the y/n loop. The price query starts
     * from gameIDs.get(0) and returns one row per distinct gameID; the
     * pricing loop reads one row per entry.
     */
    method PriceAndConfirm(user: string, input: seq<string>, cart: seq<CartLine>, pos: nat, now: string, due: string)
      returns (outcome: OrderOutcome, statement: string)
      modifies this`rentalOrders, this`trackingInfo, this`gamesInOrder
      ensures (outcome, OrderTables()) == Price(old(OrderTables()), user, input, cart, pos, now, due)
      ensures outcome.Placed? ==> statement == GamesInOrderStatement(outcome.rentalID, outcome.cart)
    {
      statement := "";
      if |cart| == 0 {
        return Aborted(EmptyCart), statement;
      }
      if |Elements(GameIDs(cart))| < |cart| {
        return Aborted(DuplicateGame), statement;
      }
      var totalCopies := TotalOf(Copies(cart));
      var answer := ReadUntilAccepted(input, pos, ConfirmPrompt);
      if answer.None? {
        return Aborted(InputEnded), statement;
      }
      if input[answer.value] == "n" {
        return Cancelled, statement;
      }
      outcome, statement := Insert(user, cart, totalCopies, now, due);
    }

    /** The three inserts of a confirmed order. */
    method Insert(user: string, cart: seq<CartLine>, totalCopies: int, now: string, due: string)
      returns (outcome: OrderOutcome, statement: string)
      requires totalCopies == TotalCopies(cart)
      modifies this`rentalOrders, this`trackingInfo, this`gamesInOrder
      ensures (outcome, OrderTables()) == Persist(old(OrderTables()), user, cart, now, due)
      ensures outcome.Placed? && statement == GamesInOrderStatement(outcome.rentalID, outcome.cart)
    {
      var rentalID := OrNull(CreateOrderID(OrderIds(rentalOrders)));
      rentalOrders := rentalOrders + [RentalOrderRow(rentalID, user, totalCopies, now, due)];
      var trackingID := OrNull(CreateTrackingID(TrackingIds(trackingInfo)));
      trackingInfo := trackingInfo + [TrackingRow(trackingID, rentalID, OrderReceived, Origin, Courier, now)];
      statement := StatementText(rentalID, cart);
      gamesInOrder := gamesInOrder + OrderLines(rentalID, cart);
      outcome := Placed(rentalID, trackingID, cart);
    }

    /** CreateUser: the account is added only when all three prompts were answered acceptably. */
    method CreateUser(input: seq<string>) returns (created: Option<UserRow>)
      requires Valid()
      modifies this`users
      ensures Valid()
      ensures created == Register(old(users), input)
      ensures users == if created.Some? then old(users)[created.value.login := created.value] else old(users)
    {
      var u := ReadUntilAccepted(input, 0, UsernamePrompt(users.Keys));
      if u.None? {
        return None;
      }
      var p := ReadUntilAccepted(input, u.value + 1, PasswordPrompt);
      if p.None? {
        return None;
      }
      var ph := ReadUntilAccepted(input, p.value + 1, PhonePrompt);
      if ph.None? {
        return None;
      }
      var row := UserRow(input[u.value], input[p.value], "customer", None, CountryCode + input[ph.value], 0);
      users := users[row.login := row];
      return Some(row);
    }

    /** changeFavoriteGames: the UPDATE changes the user's row, if there is one. */
    method ChangeFavoriteGames(user: string, input: seq<string>) returns (games: Option<string>)
      requires Valid()
      modifies this`users
      ensures Valid()
      ensures games == FavoriteGames(input)
      ensures users == if games.Some? && user in old(users)
                       then old(users)[user := old(users)[user].(favGames := games)]
                       else old(users)
    {
      if input == [] {
        return None;
      }
      var count := ParseInt(input[0]);
      if count.None? {
        return None;
      }
      var numGames := count.value;
      ghost var entered := EnteredGames(input, numGames);
      var text := "";
      var pos := 1;
      var i := 0;
      while i < numGames
        invariant 0 <= i && (i == 0 || i <= numGames) && pos == 1 + i
        invariant users == old(users)
        invariant text == Join(entered[..i], ", ") + (if 0 < i < numGames then ", " else "")
      {
        var line := if pos < |input| then input[pos] else "null";
        pos := pos + 1;
        JoinLoopStep(entered, i, ", ");
        text := text + line;
        if i < numGames - 1 {
          text := text + ", ";
        }
        i := i + 1;
      }
      if numGames > 0 {
        assert i == numGames;
        assert entered[..numGames] == entered;
      } else {
        assert entered == [];
      }
      assert text == Join(entered, ", ");
      games := Some(text);
      if user in users {
        users := users[user := users[user].(favGames := games)];
      }
    }
  }
}

=== FILE: id_allocator.dfy ===
/**
 * createOrderID and createTrackingID. Each selects the greatest existing ID
 * (`ORDER BY <id> DESC LIMIT 1` on a text column, hence the lexicographic
 * maximum), drops a fixed number of leading characters, parses the rest with
 * Integer.parseInt, adds one in int arithmetic and puts the prefix back.
 * Any exception (no row, an ID shorter than the cut, an unparsable suffix)
 * is caught and the method returns null, modelled as None.
 */
module IdAllocator {
  import opened Wrappers
  import opened JavaText

  /** Code-point lexicographic order on strings; a proper prefix comes first. */
  predicate LexLe(a: string, b: string)
    decreases |a|
  {
    if a == [] then true
    else if b == [] then false
    else if a[0] < b[0] then true
    else if a[0] == b[0] then LexLe(a[1..], b[1..])
    else false
  }

  lemma {:induction false} LexLeReflexive(a: string)
    ensures LexLe(a, a)
  {
    if a != [] {
      LexLeReflexive(a[1..]);
    }
  }

  lemma {:induction false} LexLeTotal(a: string, b: string)
    ensures LexLe(a, b) || LexLe(b, a)
    decreases |a|
  {
    if a != [] && b != [] && a[0] == b[0] {
      LexLeTotal(a[1..], b[1..]);
    }
  }

  lemma {:induction false} LexLeTransitive(a: string, b: string, c: string)
    requires LexLe(a, b) && LexLe(b, c)
    ensures LexLe(a, c)
    decreases |a|
  {
    if a != [] && b != [] && c != [] && a[0] == b[0] && b[0] == c[0] {
      LexLeTransitive(a[1..], b[1..], c[1..]);
    }
  }

  /** A shared prefix does not affect the order. */
  lemma {:induction false} LexLeCommonPrefix(p: string, a: string, b: string)
    ensures LexLe(p + a, p + b) == LexLe(a, b)
  {
    if p != [] {
      assert (p + a)[1..] == p[1..] + a;
      assert (p + b)[1..] == p[1..] + b;
      LexLeCommonPrefix(p[1..], a, b);
    } else {
      assert p + a == a && p + b == b;
    }
  }

  /** The first row of `ORDER BY id DESC LIMIT 1`; None for an empty table. */
  function MaxId(ids: seq<string>): (r: Option<string>)
    ensures r.None? <==> ids == []
    ensures r.Some? ==> r.value in ids
  {
    if ids == [] then None
    else match MaxId(ids[1..])
      case None => Some(ids[0])
      case Some(m) => if LexLe(ids[0], m) then Some(m) else Some(ids[0])
  }

  /** The selected ID is not below any ID of the table. */
  lemma {:induction false} MaxIdIsGreatest(ids: seq<string>, x: string)
    requires x in ids
    ensures MaxId(ids).Some? && LexLe(x, MaxId(ids).value)
  {
    var r := MaxId(ids).value;
    if x == ids[0] {
      if r == x {
        LexLeReflexive(x);
      }
    } else {
      assert x in ids[1..];
      MaxIdIsGreatest(ids[1..], x);
      var m := MaxId(ids[1..]).value;
      if r != m {
        LexLeTotal(ids[0], m);
        LexLeTransitive(x, m, ids[0]);
      }
    }
  }

  /** Select the maximum, cut `cut` characters, parse, add one, restore the prefix. */
  function NextId(prefix: string, cut: nat, ids: seq<string>): (r: Option<string>)
    ensures r.Some? ==> ids != [] && prefix <= r.value
  {
    match MaxId(ids)
    case None => None
    case Some(m) =>
      if |m| < cut then None
      else match ParseInt(m[cut..])
        case None => None
        case Some(v) => Some(prefix + IntToString(AddInt(v, 1)))
  }

  const OrderPrefix: string := "gamerentalorder"
  const TrackingPrefix: string := "trackingid"

  function CreateOrderID(orderIds: seq<string>): (r: Option<string>)
    ensures r.Some? ==> orderIds != [] && OrderPrefix <= r.value
  {
    NextId(OrderPrefix, 15, orderIds)
  }

  function CreateTrackingID(trackingIds: seq<string>): (r: Option<string>)
    ensures r.Some? ==> trackingIds != [] && TrackingPrefix <= r.value
  {
    NextId(TrackingPrefix, 10, trackingIds)
  }

  /** An empty table yields no ID. */
  lemma EmptyTableGivesNull()
    ensures CreateOrderID([]) == None && CreateTrackingID([]) == None
  {
  }

  /**
   * Round trip: when the selected ID is the prefix followed by the printed
   * int `i`, the next ID is the prefix followed by `i + 1` as Java computes it.
   */
  lemma NextIdRoundTrip(prefix: string, cut: nat, ids: seq<string>, i: int)
    requires |prefix| == cut && IsInt32(i)
    requires MaxId(ids) == Some(prefix + IntToString(i))
    ensures NextId(prefix, cut, ids) == Some(prefix + IntToString(AddInt(i, 1)))
  {
    var m := prefix + IntToString(i);
    assert m[cut..] == IntToString(i);
    ParseIntToString(i);
  }

  /** The cut lengths 15 and 10 are the lengths of the two prefixes. */
  lemma {:induction false} CreateIDRoundTrip(orderIds: seq<string>, trackingIds: seq<string>, n: nat, k: nat)
    requires n < IntMax && k < IntMax
    requires MaxId(orderIds) == Some(OrderPrefix + NatToString(n))
    requires MaxId(trackingIds) == Some(TrackingPrefix + NatToString(k))
    ensures CreateOrderID(orderIds) == Some(OrderPrefix + NatToString(n + 1))
    ensures CreateTrackingID(trackingIds) == Some(TrackingPrefix + NatToString(k + 1))
  {
    NextIdRoundTrip(OrderPrefix, 15, orderIds, n);
    NextIdRoundTrip(TrackingPrefix, 10, trackingIds, k);
  }

  /** At the largest int the suffix wraps around to the smallest. */
  lemma OrderIdWraps(orderIds: seq<string>)
    requires MaxId(orderIds) == Some(OrderPrefix + IntToString(IntMax))
    ensures CreateOrderID(orderIds) == Some(OrderPrefix + IntToString(IntMin))
  {
    NextIdRoundTrip(OrderPrefix, 15, orderIds, IntMax);
  }

  /**
   * Lexicographic selection reuses IDs: with orders 9 and 10 present, order 9
   * is selected and order 10 is produced again.
   */
  lemma OrderIdCollision()
    ensures MaxId([OrderPrefix + "9", OrderPrefix + "10"]) == Some(OrderPrefix + "9")
    ensures CreateOrderID([OrderPrefix + "9", OrderPrefix + "10"]) == Some(OrderPrefix + "10")
  {
    var ids := [OrderPrefix + "9", OrderPrefix + "10"];
    LexLeCommonPrefix(OrderPrefix, "9", "10");
    assert !LexLe("9", "10");
    assert ids[1..] == [OrderPrefix + "10"];
    assert NatToString(9) == "9";
    assert IntToString(9) == "9";
    NextIdRoundTrip(OrderPrefix, 15, ids, 9);
    assert NatToString(10) == "10";
  }
}

=== FILE: java_text.dfy ===
/**
 * The pieces of java.lang behaviour the console class relies on when it turns
 * text into numbers and numbers back into text: `Integer.parseInt`,
 * `Integer.toString` (string concatenation of an int), 32-bit int addition,
 * and joining entries with a separator the way the class's loops do.
 * Digits are the ASCII digits '0'..'9'.
 */
module JavaText {
  import opened Wrappers

  const IntMin: int := -0x8000_0000
  const IntMax: int := 0x7fff_ffff
  const TwoTo32: int := 0x1_0000_0000

  predicate IsInt32(i: int) {
    IntMin <= i <= IntMax
  }

  predicate IsDigit(c: char) {
    '0' <= c <= '9'
  }

  predicate AllDigits(s: string) {
    forall i :: 0 <= i < |s| ==> IsDigit(s[i])
  }

  /** The value of a string of decimal digits, most significant first. */
  function DigitsValue(s: string): nat
    requires AllDigits(s)
  {
    if s == [] then 0 else 10 * DigitsValue(s[..|s| - 1]) + (s[|s| - 1] as int - '0' as int)
  }

  /** Decimal digits of a natural number, without leading zeros. */
  function NatToString(n: nat): (r: string)
    ensures |r| >= 1 && AllDigits(r)
    ensures r[0] == '0' ==> n == 0
  {
    if n < 10 then [('0' as int + n) as char]
    else NatToString(n / 10) + [('0' as int + n % 10) as char]
  }

  lemma {:induction false} NatToStringValue(n: nat)
    ensures DigitsValue(NatToString(n)) == n
  {
    if n >= 10 {
      var s := NatToString(n / 10);
      var c := ('0' as int + n % 10) as char;
      assert (s + [c])[..|s + [c]| - 1] == s;
      NatToStringValue(n / 10);
    }
  }

  /** `Integer.parseInt(s)`: None stands for the NumberFormatException. */
  function ParseInt(s: string): (r: Option<int>)
    ensures r.Some? ==> IsInt32(r.value)
  {
    if s == [] then None
    else if s[0] == '-' then
      if |s| > 1 && AllDigits(s[1..]) && DigitsValue(s[1..]) <= -IntMin then Some(-(DigitsValue(s[1..]) as int)) else None
    else if s[0] == '+' then
      if |s| > 1 && AllDigits(s[1..]) && DigitsValue(s[1..]) <= IntMax then Some(DigitsValue(s[1..])) else None
    else if AllDigits(s) && DigitsValue(s) <= IntMax then Some(DigitsValue(s))
    else None
  }

  /**
   * parseInt accepts nothing but an optional sign followed by one or more
   * decimal digits; every other text is a NumberFormatException.
   */
  lemma ParseIntShape(s: string)
    requires ParseInt(s).Some?
    ensures |s| > 0
    ensures if s[0] == '-' || s[0] == '+' then |s| > 1 && AllDigits(s[1..]) else AllDigits(s)
  {
  }

  /** An int as Java prints it: a minus sign for negatives, then the digits. */
  function IntToString(i: int): string {
    if i < 0 then "-" + NatToString(-i) else NatToString(i)
  }

  /** parseInt reads back every int that toString prints. */
  lemma ParseIntToString(i: int)
    requires IsInt32(i)
    ensures ParseInt(IntToString(i)) == Some(i)
  {
    if i < 0 {
      var d := NatToString(-i);
      NatToStringValue(-i);
      ParseNegative(d);
    } else {
      var d := NatToString(i);
      NatToStringValue(i);
      assert IsDigit(d[0]);
    }
  }

  lemma ParseNegative(d: string)
    requires d != [] && AllDigits(d) && DigitsValue(d) <= -IntMin
    ensures ParseInt("-" + d) == Some(-(DigitsValue(d) as int))
  {
    var s := "-" + d;
    assert s[0] == '-' && |s| > 1;
    assert s[1..] == d;
  }

  /** A non-empty digit string parses exactly when its value fits an int. */
  lemma ParseDigitString(s: string)
    requires s != [] && AllDigits(s)
    ensures ParseInt(s) == if DigitsValue(s) <= IntMax then Some(DigitsValue(s)) else None
  {
    assert IsDigit(s[0]);
  }

  /** Java's `a + b` on int: the exact sum, wrapped into the 32-bit range. */
  function AddInt(a: int, b: int): (r: int)
    ensures IsInt32(r)
    ensures IsInt32(a + b) ==> r == a + b
  {
    (a + b - IntMin) % TwoTo32 + IntMin
  }

  lemma AddIntOverflow()
    ensures AddInt(IntMax, 1) == IntMin
  {
  }

  function Sum(s: seq<int>): int {
    if s == [] then 0 else Sum(s[..|s| - 1]) + s[|s| - 1]
  }

  /** The sum of `s` as a loop accumulating into a Java int computes it. */
  function IntSum(s: seq<int>): (r: int)
    ensures IsInt32(r)
  {
    if s == [] then 0 else AddInt(IntSum(s[..|s| - 1]), s[|s| - 1])
  }

  lemma {:induction false} SumNonNegative(s: seq<int>)
    requires forall i :: 0 <= i < |s| ==> 0 <= s[i]
    ensures 0 <= Sum(s)
  {
    if s != [] {
      SumNonNegative(s[..|s| - 1]);
    }
  }

  /** With non-negative entries whose sum fits an int, nothing wraps. */
  lemma {:induction false} IntSumExact(s: seq<int>)
    requires forall i :: 0 <= i < |s| ==> 0 <= s[i]
    requires Sum(s) <= IntMax
    ensures IntSum(s) == Sum(s)
  {
    if s != [] {
      var init := s[..|s| - 1];
      SumNonNegative(init);
      IntSumExact(init);
    }
  }

  /** `parts` with `sep` between consecutive entries. */
  function Join(parts: seq<string>, sep: string): string {
    if |parts| == 0 then ""
    else if |parts| == 1 then parts[0]
    else parts[0] + sep + Join(parts[1..], sep)
  }

  /** Appending one entry adds one separator and the entry. */
  lemma {:induction false} JoinSnoc(parts: seq<string>, p: string, sep: string)
    requires |parts| > 0
    ensures Join(parts + [p], sep) == Join(parts, sep) + sep + p
  {
    if |parts| > 1 {
      assert (parts + [p])[1..] == parts[1..] + [p];
      JoinSnoc(parts[1..], p, sep);
    } else {
      assert (parts + [p])[1..] == [p];
    }
  }

  /**
   * One round of the class's join loops, which append an entry and then a
   * separator unless it was the last entry.
   */
  lemma JoinLoopStep(parts: seq<string>, k: nat, sep: string)
    requires k < |parts|
    ensures Join(parts[..k], sep) + (if 0 < k then sep else "") + parts[k] == Join(parts[..k + 1], sep)
  {
    if k == 0 {
      assert parts[..1] == [parts[0]];
    } else {
      assert parts[..k + 1] == parts[..k] + [parts[k]];
      JoinSnoc(parts[..k], parts[k], sep);
    }
  }

  /** Where entry `i` starts in `Join(parts, sep)`. */
  function Offset(parts: seq<string>, sep: string, i: nat): nat
    requires i <= |parts|
  {
    if i == 0 then 0 else |parts[0]| + |sep| + Offset(parts[1..], sep, i - 1)
  }

  lemma {:induction false} OffsetNext(parts: seq<string>, sep: string, i: nat)
    requires i < |parts|
    ensures Offset(parts, sep, i + 1) == Offset(parts, sep, i) + |parts[i]| + |sep|
  {
    if i > 0 {
      OffsetNext(parts[1..], sep, i - 1);
    }
  }

  /**
   * The joined string is each entry in turn, with exactly one separator
   * between consecutive entries and nothing before the first or after the last.
   */
  lemma JoinSegments(parts: seq<string>, sep: string, i: nat)
    requires i < |parts|
    ensures Offset(parts, sep, i) + |parts[i]| <= |Join(parts, sep)|
    ensures Join(parts, sep)[Offset(parts, sep, i)..Offset(parts, sep, i) + |parts[i]|] == parts[i]
    ensures i + 1 < |parts| ==>
              Offset(parts, sep, i + 1) == Offset(parts, sep, i) + |parts[i]| + |sep| &&
              Offset(parts, sep, i + 1) <= |Join(parts, sep)| &&
              Join(parts, sep)[Offset(parts, sep, i) + |parts[i]|..Offset(parts, sep, i + 1)] == sep
    ensures i + 1 == |parts| ==> |Join(parts, sep)| == Offset(parts, sep, i) + |parts[i]|
  {
    JoinEntry(parts, sep, i);
    OffsetNext(parts, sep, i);
    if i + 1 < |parts| {
      JoinSeparator(parts, sep, i);
    }
  }

  lemma {:induction false} JoinEntry(parts: seq<string>, sep: string, i: nat)
    requires i < |parts|
    ensures Offset(parts, sep, i) + |parts[i]| <= |Join(parts, sep)|
    ensures Join(parts, sep)[Offset(parts, sep, i)..Offset(parts, sep, i) + |parts[i]|] == parts[i]
    ensures i + 1 == |parts| ==> |Join(parts, sep)| == Offset(parts, sep, i) + |parts[i]|
  {
    if i == 0 {
      JoinHead(parts, sep);
    } else {
      JoinEntry(parts[1..], sep, i - 1);
      var o := Offset(parts[1..], sep, i - 1);
      JoinShift(parts, sep, o, o + |parts[i]|);
    }
  }

  lemma {:induction false} JoinSeparator(parts: seq<string>, sep: string, i: nat)
    requires i + 1 < |parts|
    ensures Offset(parts, sep, i) + |parts[i]| + |sep| <= |Join(parts, sep)|
    ensures Join(parts, sep)[Offset(parts, sep, i) + |parts[i]|..Offset(parts, sep, i) + |parts[i]| + |sep|] == sep
  {
    if i == 0 {
      JoinHead(parts, sep);
    } else {
      JoinSeparator(parts[1..], sep, i - 1);
      var o := Offset(parts[1..], sep, i - 1) + |parts[i]|;
      JoinShift(parts, sep, o, o + |sep|);
    }
  }

  /** The joined string opens with the first entry, then a separator if more follow. */
  lemma JoinHead(parts: seq<string>, sep: string)
    requires 0 < |parts|
    ensures |parts[0]| <= |Join(parts, sep)| && Join(parts, sep)[..|parts[0]|] == parts[0]
    ensures |parts| == 1 ==> Join(parts, sep) == parts[0]
    ensures 1 < |parts| ==> Join(parts, sep)[|parts[0]|..|parts[0]| + |sep|] == sep
  {
    if 1 < |parts| {
      var j := Join(parts, sep);
      assert j == parts[0] + sep + Join(parts[1..], sep);
      assert j[..|parts[0]|] == parts[0];
      assert j[|parts[0]|..|parts[0]| + |sep|] == sep;
    }
  }

  /** A slice of the tail's join sits shifted by the first entry and a separator. */
  lemma JoinShift(parts: seq<string>, sep: string, lo: nat, hi: nat)
    requires 1 < |parts| && lo <= hi <= |Join(parts[1..], sep)|
    ensures |parts[0]| + |sep| + hi <= |Join(parts, sep)|
    ensures Join(parts, sep)[|parts[0]| + |sep| + lo..|parts[0]| + |sep| + hi] == Join(parts[1..], sep)[lo..hi]
  {
    var head := parts[0] + sep;
    var jr := Join(parts[1..], sep);
    assert Join(parts, sep) == head + jr;
    SliceOfRight(head, jr, lo, hi);
  }

  lemma SliceOfRight(a: string, b: string, lo: nat, hi: nat)
    requires lo <= hi <= |b|
    ensures (a + b)[|a| + lo..|a| + hi] == b[lo..hi]
  {
  }
}

=== FILE: order_workflow.dfy ===
/**
 * placeOrder as a function of the tables it reads and writes and of the lines
 * typed at the console: read the number of games, collect the cart into
 * gameIDs/numCopies, price it, total the copies, ask for y/n, then insert one
 * RentalOrder row, one TrackingInfo row and the GamesInOrder rows.
 *
 * The order of failures follows the Java code. Each exception is caught by
 * placeOrder's handler, which prints it and returns, so nothing written
 * before the failure is undone (and before confirmation nothing is written).
 */
module OrderWorkflow {
  import opened Wrappers
  import opened JavaText
  import opened Validation
  import opened Console
  import opened IdAllocator

  datatype RentalOrderRow = RentalOrderRow(
    rentalOrderID: string, login: string, totalCopies: int, orderTimestamp: string, dueDate: string)

  datatype TrackingRow = TrackingRow(
    trackingID: string, rentalOrderID: string, status: string,
    currentLocation: string, courierName: string, lastUpdateDate: string)

  datatype GameInOrderRow = GameInOrderRow(rentalOrderID: string, gameID: string, unitsOrdered: int)

  /** The three tables placeOrder writes. */
  datatype Tables = Tables(orders: seq<RentalOrderRow>, tracking: seq<TrackingRow>, lines: seq<GameInOrderRow>)

  /** Entry `i` of the parallel lists gameIDs and numCopies. */
  datatype CartLine = CartLine(gameID: string, copies: int)

  datatype AbortReason =
    | InputEnded     // readLine gave null and a validator or the switch dereferenced it
    | NotAnInt       // Integer.parseInt rejected a digit string too large for an int
    | EmptyCart      // zero games: gameIDs.get(0) while building the price query
    | DuplicateGame  // a gameID entered twice: the price query returns fewer rows than entries

  datatype OrderOutcome =
    | Cancelled
    | Placed(rentalID: string, trackingID: string, cart: seq<CartLine>)
    | Aborted(reason: AbortReason)
    | EndlessReprompt  // input ended at the gameID prompt, whose validator swallows the null

  const OrderReceived: string := "Order Received"
  const Origin: string := "Los Angeles,CA"
  const Courier: string := "USPS"

  /** The state of the cart loop: the lines collected and where input continues, or how it stopped. */
  datatype Collected = Collected(cart: seq<CartLine>, next: nat) | Halted(outcome: OrderOutcome)

  /**
   * The first `k` rounds of the cart loop started at input line `from`. Each
   * round re-prompts for a gameID until validateGameID accepts one, then for a
   * count until validateInteger accepts one, and parses it.
   */
  function CollectCart(input: seq<string>, catalog: set<string>, from: nat, k: int): (r: Collected)
    decreases k
    ensures r.Halted? ==> r.outcome == EndlessReprompt || r.outcome.Aborted?
  {
    if k <= 0 then Collected([], from)
    else match CollectCart(input, catalog, from, k - 1)
      case Halted(o) => Halted(o)
      case Collected(cart, p) => CartRound(input, catalog, cart, p)
  }

  /**
   * One round of the cart loop from line `p`: a game ID re-prompted until
   * validateGameID accepts it, then a count re-prompted until validateInteger
   * accepts it and parsed.
   */
  function CartRound(input: seq<string>, catalog: set<string>, cart: seq<CartLine>, p: nat): (r: Collected)
    ensures r.Halted? ==> r.outcome == EndlessReprompt || r.outcome.Aborted?
  {
    match NextAccepted(input, p, GameIDPrompt(catalog))
    case None => Halted(EndlessReprompt)
    case Some(g) =>
      match NextAccepted(input, g + 1, CountPrompt)
      case None => Halted(Aborted(InputEnded))
      case Some(c) =>
        match ParseInt(input[c])
        case None => Halted(Aborted(NotAnInt))
        case Some(v) => Collected(cart + [CartLine(input[g], v)], c + 1)
  }

  /** Once the loop has stopped, later rounds do not run. */
  lemma {:induction false} HaltedPersists(input: seq<string>, catalog: set<string>, from: nat, k: int, k': int)
    requires k <= k'
    requires CollectCart(input, catalog, from, k).Halted?
    ensures CollectCart(input, catalog, from, k') == CollectCart(input, catalog, from, k)
    decreases k' - k
  {
    if k < k' {
      HaltedPersists(input, catalog, from, k, k' - 1);
    }
  }

  /**
   * A round that completes reads a game ID line `g`, the first line from `p`
   * on that validateGameID accepts, then the first line after `g` that
   * validateInteger accepts, and appends the game ID with the parsed,
   * non-negative count; input continues after the count line.
   */
  lemma RoundAppends(input: seq<string>, catalog: set<string>, cart: seq<CartLine>, p: nat)
    requires CartRound(input, catalog, cart, p).Collected?
    ensures NextAccepted(input, p, GameIDPrompt(catalog)).Some?
    ensures var r := CartRound(input, catalog, cart, p);
      var g := NextAccepted(input, p, GameIDPrompt(catalog)).value;
      && p <= g < r.next - 1 < |input|
      && NextAccepted(input, g + 1, CountPrompt) == Some(r.next - 1)
      && ValidateGameID(catalog, input[g])
      && IsDigitString(input[r.next - 1])
      && ParseInt(input[r.next - 1]).Some?
      && 0 <= ParseInt(input[r.next - 1]).value
      && r.cart == cart + [CartLine(input[g], ParseInt(input[r.next - 1]).value)]
  {
    var g := NextAccepted(input, p, GameIDPrompt(catalog)).value;
    var c := NextAccepted(input, g + 1, CountPrompt).value;
    ParseDigitString(input[c]);
  }

  /** Where round `i` of the cart loop starts reading, after the (game line, count line) pairs `entries`. */
  function RoundStart(from: nat, entries: seq<(nat, nat)>, i: nat): nat
    requires i <= |entries|
  {
    if i == 0 then from else entries[i - 1].1 + 1
  }

  /**
   * One round of the cart loop, started at line `start`, read game ID line `g`
   * and count line `c` and produced `line`: it skipped the lines
   * validateGameID rejects, took the first one it accepts, skipped the lines
   * validateInteger rejects, took the first one it accepts, and paired the
   * typed game ID with the parsed count.
   */
  predicate RoundRead(input: seq<string>, catalog: set<string>, start: nat, g: nat, c: nat, line: CartLine) {
    && start <= g < c < |input|
    && (forall l :: start <= l < g ==> !ValidateGameID(catalog, input[l]))
    && ValidateGameID(catalog, input[g])
    && (forall l :: g < l < c ==> !IsDigitString(input[l]))
    && IsDigitString(input[c])
    && ParseInt(input[c]).Some?
    && line == CartLine(input[g], ParseInt(input[c]).value)
  }

  /**
   * The cart loop started at line `from` read the (game line, count line)
   * pairs `entries`, built `cart` from them in that order and left input at
   * line `next`; each round starts right after the previous count line.
   */
  predicate ReadsCart(input: seq<string>, catalog: set<string>, from: nat, entries: seq<(nat, nat)>,
                      cart: seq<CartLine>, next: nat)
  {
    && |cart| == |entries|
    && next == RoundStart(from, entries, |entries|)
    && forall i {:trigger RoundStart(from, entries, i)} :: 0 <= i < |entries| ==> RoundRead(input, catalog, RoundStart(from, entries, i), entries[i].0, entries[i].1, cart[i])
  }

  /** The pair of lines the two re-prompt loops of a round settle on is a round read. */
  lemma PromptsReadRound(input: seq<string>, catalog: set<string>, start: nat, g: nat, c: nat)
    requires NextAccepted(input, start, GameIDPrompt(catalog)) == Some(g)
    requires NextAccepted(input, g + 1, CountPrompt) == Some(c)
    requires ParseInt(input[c]).Some?
    ensures RoundRead(input, catalog, start, g, c, CartLine(input[g], ParseInt(input[c]).value))
  {
  }

  /** One more round read after `entries` keeps the description of the loop true. */
  lemma ReadsCartSnoc(input: seq<string>, catalog: set<string>, from: nat, entries: seq<(nat, nat)>,
                      cart: seq<CartLine>, next: nat, g: nat, c: nat, line: CartLine)
    requires ReadsCart(input, catalog, from, entries, cart, next)
    requires RoundRead(input, catalog, next, g, c, line)
    ensures ReadsCart(input, catalog, from, entries + [(g, c)], cart + [line], c + 1)
  {
    var e := entries + [(g, c)];
    var cart' := cart + [line];
    forall i | 0 <= i < |e|
      ensures RoundRead(input, catalog, RoundStart(from, e, i), e[i].0, e[i].1, cart'[i])
    {
      assert RoundStart(from, e, i) == RoundStart(from, entries, i) by {
        if i > 0 {
          assert e[i - 1] == entries[i - 1];
        }
      }
      if i < |entries| {
        assert e[i] == entries[i] && cart'[i] == cart[i];
      }
    }
    assert RoundStart(from, e, |e|) == c + 1;
  }

  /**
   * A completed cart loop holds one line per round. The lines are the game
   * IDs and counts typed, in the order typed: there are input lines, one game
   * line and one count line per round, that ReadsCart describes.
   */
  lemma {:induction false} CartFromInput(input: seq<string>, catalog: set<string>, from: nat, k: int)
    requires CollectCart(input, catalog, from, k).Collected?
    ensures var r := CollectCart(input, catalog, from, k);
      && |r.cart| == (if k <= 0 then 0 else k)
      && from <= r.next
      && (k > 0 ==> r.next <= |input|)
      && ReadFrom(input, catalog, from, r.cart, r.next)
    decreases k
  {
    if k > 0 {
      var prev := CollectCart(input, catalog, from, k - 1);
      assert prev.Collected?;
      CartFromInput(input, catalog, from, k - 1);
      var e :| ReadsCart(input, catalog, from, e, prev.cart, prev.next);
      RoundExtendsRead(input, catalog, from, e, prev.cart, prev.next);
    } else {
      assert ReadsCart(input, catalog, from, [], [], from);
    }
  }

  /** A completed round extends a cart read as ReadsCart describes by one (game line, count line) pair. */
  lemma RoundExtendsRead(input: seq<string>, catalog: set<string>, from: nat, entries: seq<(nat, nat)>,
                         cart: seq<CartLine>, p: nat)
    requires ReadsCart(input, catalog, from, entries, cart, p)
    requires CartRound(input, catalog, cart, p).Collected?
    ensures var r := CartRound(input, catalog, cart, p);
      && |r.cart| == |cart| + 1
      && p < r.next <= |input|
      && ReadFrom(input, catalog, from, r.cart, r.next)
  {
    var r := CartRound(input, catalog, cart, p);
    RoundAppends(input, catalog, cart, p);
    var g := NextAccepted(input, p, GameIDPrompt(catalog)).value;
    var c := r.next - 1;
    var line := CartLine(input[g], ParseInt(input[c]).value);
    PromptsReadRound(input, catalog, p, g, c);
    ReadsCartSnoc(input, catalog, from, entries, cart, p, g, c, line);
  }

  /** Some sequence of (game line, count line) pairs reads `cart` from line `from`, as ReadsCart describes. */
  ghost predicate ReadFrom(input: seq<string>, catalog: set<string>, from: nat, cart: seq<CartLine>, next: nat) {
    exists entries :: ReadsCart(input, catalog, from, entries, cart, next)
  }

  /** Every line of a cart read this way carries a game ID validateGameID accepted and a non-negative count. */
  lemma ReadCartValid(input: seq<string>, catalog: set<string>, from: nat, entries: seq<(nat, nat)>,
                      cart: seq<CartLine>, next: nat)
    requires ReadsCart(input, catalog, from, entries, cart, next)
    ensures forall i :: 0 <= i < |cart| ==> ValidateGameID(catalog, cart[i].gameID) && 0 <= cart[i].copies
  {
    forall i | 0 <= i < |cart|
      ensures ValidateGameID(catalog, cart[i].gameID) && 0 <= cart[i].copies
    {
      assert RoundRead(input, catalog, RoundStart(from, entries, i), entries[i].0, entries[i].1, cart[i]);
      ParseDigitString(input[entries[i].1]);
    }
  }

  function GameIDs(cart: seq<CartLine>): (ids: seq<string>)
    ensures |ids| == |cart| && forall i :: 0 <= i < |cart| ==> ids[i] == cart[i].gameID
  {
    seq(|cart|, i requires 0 <= i < |cart| => cart[i].gameID)
  }

  function Copies(cart: seq<CartLine>): (copies: seq<int>)
    ensures |copies| == |cart| && forall i :: 0 <= i < |cart| ==> copies[i] == cart[i].copies
  {
    seq(|cart|, i requires 0 <= i < |cart| => cart[i].copies)
  }

  /** totalCopies: the counts added up in an Integer, left to right. */
  function TotalCopies(cart: seq<CartLine>): int {
    IntSum(Copies(cart))
  }

  function Elements(ids: seq<string>): set<string> {
    set i | 0 <= i < |ids| :: ids[i]
  }

  predicate Distinct(ids: seq<string>) {
    forall i, j :: 0 <= i < j < |ids| ==> ids[i] != ids[j]
  }

  /**
   * The price query returns one row per distinct gameID; the pricing loop
   * reads one row per entry, so it runs past the rows exactly when some
   * gameID was entered twice.
   */
  lemma {:induction false} FewerRowsIffDuplicate(ids: seq<string>)
    ensures |Elements(ids)| <= |ids|
    ensures |Elements(ids)| < |ids| <==> !Distinct(ids)
  {
    if ids != [] {
      var rest := ids[1..];
      FewerRowsIffDuplicate(rest);
      assert Elements(ids) == {ids[0]} + Elements(rest) by {
        forall x | x in Elements(ids) ensures x in {ids[0]} + Elements(rest) {
          var i :| 0 <= i < |ids| && ids[i] == x;
          if i > 0 {
            assert rest[i - 1] == x;
          }
        }
      }
      if ids[0] in Elements(rest) {
        var i :| 0 <= i < |rest| && rest[i] == ids[0];
        assert ids[0] == ids[i + 1];
      } else {
        if !Distinct(ids) {
          var i, j :| 0 <= i < j < |ids| && ids[i] == ids[j];
          if i > 0 {
            assert rest[i - 1] == rest[j - 1];
          }
        }
      }
    }
  }

  /** Java's string concatenation prints a null ID as "null". */
  function OrNull(id: Option<string>): string {
    match id
    case Some(s) => s
    case None => "null"
  }

  function OrderIds(orders: seq<RentalOrderRow>): seq<string> {
    seq(|orders|, i requires 0 <= i < |orders| => orders[i].rentalOrderID)
  }

  function TrackingIds(tracking: seq<TrackingRow>): seq<string> {
    seq(|tracking|, i requires 0 <= i < |tracking| => tracking[i].trackingID)
  }

  /** The rows the GamesInOrder statement inserts, one per cart entry. */
  function OrderLines(rentalID: string, cart: seq<CartLine>): seq<GameInOrderRow> {
    seq(|cart|, i requires 0 <= i < |cart| => GameInOrderRow(rentalID, cart[i].gameID, cart[i].copies))
  }

  /** The three inserts of a confirmed order, in the order they are issued. */
  function Persist(t: Tables, user: string, cart: seq<CartLine>, now: string, due: string): (OrderOutcome, Tables) {
    var rentalID := OrNull(CreateOrderID(OrderIds(t.orders)));
    var orders := t.orders + [RentalOrderRow(rentalID, user, TotalCopies(cart), now, due)];
    var trackingID := OrNull(CreateTrackingID(TrackingIds(t.tracking)));
    var tracking := t.tracking + [TrackingRow(trackingID, rentalID, OrderReceived, Origin, Courier, now)];
    (Placed(rentalID, trackingID, cart), Tables(orders, tracking, t.lines + OrderLines(rentalID, cart)))
  }

  /** The y/n loop after the summary: "n" cancels, "y" goes on to the inserts. */
  function Confirm(t: Tables, user: string, input: seq<string>, cart: seq<CartLine>, p: nat, now: string, due: string)
    : (OrderOutcome, Tables)
  {
    match NextAccepted(input, p, ConfirmPrompt)
    case None => (Aborted(InputEnded), t)
    case Some(c) =>
      if input[c] == "n" then (Cancelled, t)
      else Persist(t, user, cart, now, due)
  }

  /** Building the price query and reading one price row per entry. */
  function Price(t: Tables, user: string, input: seq<string>, cart: seq<CartLine>, p: nat, now: string, due: string)
    : (OrderOutcome, Tables)
  {
    if |cart| == 0 then (Aborted(EmptyCart), t)
    else if |Elements(GameIDs(cart))| < |cart| then (Aborted(DuplicateGame), t)
    else Confirm(t, user, input, cart, p, now, due)
  }

  /**
   * placeOrder from start to end. `now` and `due` are the formatted order
   * timestamp and the date thirty days later, read from the clock by the code.
   */
  function Checkout(t: Tables, catalog: set<string>, user: string, input: seq<string>, now: string, due: string)
    : (OrderOutcome, Tables)
  {
    match NextAccepted(input, 0, CountPrompt)
    case None => (Aborted(InputEnded), t)
    case Some(j) =>
      match ParseInt(input[j])
      case None => (Aborted(NotAnInt), t)
      case Some(n) => FillAndPrice(t, catalog, user, input, j + 1, n, now, due)
  }

  /** The cart loop for `n` games from line `from`, then the price query and what follows. */
  function FillAndPrice(t: Tables, catalog: set<string>, user: string, input: seq<string>, from: nat, n: int,
                        now: string, due: string): (OrderOutcome, Tables)
  {
    match CollectCart(input, catalog, from, n)
    case Halted(o) => (o, t)
    case Collected(cart, p) => Price(t, user, input, cart, p, now, due)
  }

  /** Every outcome other than a placed order leaves all three tables as they were. */
  lemma NoWritesUnlessPlaced(t: Tables, catalog: set<string>, user: string, input: seq<string>, now: string, due: string)
    requires !Checkout(t, catalog, user, input, now, due).0.Placed?
    ensures Checkout(t, catalog, user, input, now, due).1 == t
  {
  }

  /**
   * The y/n answer decides: once the count was read, the cart collected and
   * priced, the first "y" or "n" typed places the order or cancels it.
   */
  lemma ConfirmationDecides(t: Tables, catalog: set<string>, user: string, input: seq<string>, now: string, due: string,
                            j: nat, n: int, cart: seq<CartLine>, p: nat, c: nat)
    requires NextAccepted(input, 0, CountPrompt) == Some(j) && ParseInt(input[j]) == Some(n)
    requires CollectCart(input, catalog, j + 1, n) == Collected(cart, p)
    requires |cart| > 0 && Distinct(GameIDs(cart))
    requires NextAccepted(input, p, ConfirmPrompt) == Some(c)
    ensures input[c] == "n" ==> Checkout(t, catalog, user, input, now, due) == (Cancelled, t)
    ensures input[c] == "y" ==> Checkout(t, catalog, user, input, now, due) == Persist(t, user, cart, now, due)
    ensures forall l :: p <= l < c ==> input[l] != "y" && input[l] != "n"
  {
    FewerRowsIffDuplicate(GameIDs(cart));
    assert Checkout(t, catalog, user, input, now, due) == FillAndPrice(t, catalog, user, input, j + 1, n, now, due);
    assert FillAndPrice(t, catalog, user, input, j + 1, n, now, due) == Confirm(t, user, input, cart, p, now, due);
  }

  /**
   * A placed order: a cart of one or more distinct valid games, one
   * RentalOrder row carrying the new rental ID, the user and the total number
   * of copies, one TrackingInfo row for that rental ID with the fixed initial
   * status, location and courier, and one GamesInOrder row per cart entry,
   * in entry order, all carrying the rental ID.
   */
  lemma {:induction false} PlacedOrder(t: Tables, catalog: set<string>, user: string, input: seq<string>, now: string, due: string)
    requires Checkout(t, catalog, user, input, now, due).0.Placed?
    ensures var (o, t') := Checkout(t, catalog, user, input, now, due);
      && 1 <= |o.cart| && Distinct(GameIDs(o.cart))
      && (forall i :: 0 <= i < |o.cart| ==> ValidateGameID(catalog, o.cart[i].gameID) && 0 <= o.cart[i].copies)
      && o.rentalID == OrNull(CreateOrderID(OrderIds(t.orders)))
      && o.trackingID == OrNull(CreateTrackingID(TrackingIds(t.tracking)))
      && t'.orders == t.orders + [RentalOrderRow(o.rentalID, user, TotalCopies(o.cart), now, due)]
      && (Sum(Copies(o.cart)) <= IntMax ==> TotalCopies(o.cart) == Sum(Copies(o.cart)))
      && t'.tracking == t.tracking + [TrackingRow(o.trackingID, o.rentalID, "Order Received", "Los Angeles,CA", "USPS", now)]
      && |t'.lines| == |t.lines| + |o.cart|
      && t'.lines[..|t.lines|] == t.lines
      && forall i :: 0 <= i < |o.cart| ==>
           t'.lines[|t.lines| + i] == GameInOrderRow(o.rentalID, o.cart[i].gameID, o.cart[i].copies)
  {
    var j, n, cart := PlacedPassedPricing(t, catalog, user, input, now, due);
    PricedCart(input, catalog, j + 1, n);
    PersistRows(t, user, cart, now, due);
  }

  /** A cart that got past the pricing checks: non-empty, no game twice, every line valid. */
  lemma PricedCart(input: seq<string>, catalog: set<string>, from: nat, n: int)
    requires CollectCart(input, catalog, from, n).Collected?
    requires var cart := CollectCart(input, catalog, from, n).cart;
      1 <= |cart| && |cart| <= |Elements(GameIDs(cart))|
    ensures var cart := CollectCart(input, catalog, from, n).cart;
      && Distinct(GameIDs(cart))
      && (forall i :: 0 <= i < |cart| ==> ValidateGameID(catalog, cart[i].gameID) && 0 <= cart[i].copies)
      && (Sum(Copies(cart)) <= IntMax ==> TotalCopies(cart) == Sum(Copies(cart)))
  {
    var r := CollectCart(input, catalog, from, n);
    CartFromInput(input, catalog, from, n);
    var e :| ReadsCart(input, catalog, from, e, r.cart, r.next);
    ReadCartValid(input, catalog, from, e, r.cart, r.next);
    FewerRowsIffDuplicate(GameIDs(r.cart));
    if Sum(Copies(r.cart)) <= IntMax {
      IntSumExact(Copies(r.cart));
    }
  }

  /** A placed order went through the cart loop and the pricing checks to the inserts. */
  lemma PlacedPassedPricing(t: Tables, catalog: set<string>, user: string, input: seq<string>, now: string, due: string)
    returns (j: nat, n: int, cart: seq<CartLine>)
    requires Checkout(t, catalog, user, input, now, due).0.Placed?
    ensures NextAccepted(input, 0, CountPrompt) == Some(j) && ParseInt(input[j]) == Some(n)
    ensures CollectCart(input, catalog, j + 1, n).Collected? && cart == CollectCart(input, catalog, j + 1, n).cart
    ensures 1 <= |cart| && |cart| <= |Elements(GameIDs(cart))|
    ensures Checkout(t, catalog, user, input, now, due) == Persist(t, user, cart, now, due)
  {
    j := NextAccepted(input, 0, CountPrompt).value;
    n := ParseInt(input[j]).value;
    var r := CollectCart(input, catalog, j + 1, n);
    cart := r.cart;
    assert Checkout(t, catalog, user, input, now, due) == Price(t, user, input, cart, r.next, now, due);
  }

  /**
   * The cart of an order is the one typed after the count: the first line
   * validateInteger accepts is the count `n`, and the cart has exactly `n`
   * lines, read from the following input lines as ReadsCart describes.
   */
  ghost predicate PlacedCart(catalog: set<string>, input: seq<string>, cart: seq<CartLine>) {
    && NextAccepted(input, 0, CountPrompt).Some?
    && var j := NextAccepted(input, 0, CountPrompt).value;
      && ParseInt(input[j]).Some?
      && var n := ParseInt(input[j]).value;
      && |cart| == n
      && CollectCart(input, catalog, j + 1, n).Collected?
      && cart == CollectCart(input, catalog, j + 1, n).cart
      && ReadFrom(input, catalog, j + 1, cart, CollectCart(input, catalog, j + 1, n).next)
  }

  /** The cart of a placed order holds the entries typed after the count, in typed order. */
  lemma PlacedCartRead(t: Tables, catalog: set<string>, user: string, input: seq<string>, now: string, due: string)
    requires Checkout(t, catalog, user, input, now, due).0.Placed?
    ensures PlacedCart(catalog, input, Checkout(t, catalog, user, input, now, due).0.cart)
  {
    var j, n, cart := PlacedPassedPricing(t, catalog, user, input, now, due);
    assert Checkout(t, catalog, user, input, now, due).0.cart == cart;
    CountedCart(catalog, input, j, n);
  }

  /** A completed cart loop for the count typed first is a cart PlacedCart describes, once it has a line. */
  lemma CountedCart(catalog: set<string>, input: seq<string>, j: nat, n: int)
    requires NextAccepted(input, 0, CountPrompt) == Some(j) && ParseInt(input[j]) == Some(n)
    requires CollectCart(input, catalog, j + 1, n).Collected? && 1 <= n
    ensures PlacedCart(catalog, input, CollectCart(input, catalog, j + 1, n).cart)
  {
    CartFromInput(input, catalog, j + 1, n);
  }

  /** The rows the three inserts add, each table extended at its end. */
  lemma PersistRows(t: Tables, user: string, cart: seq<CartLine>, now: string, due: string)
    ensures var (o, t') := Persist(t, user, cart, now, due);
      && o == Placed(OrNull(CreateOrderID(OrderIds(t.orders))), OrNull(CreateTrackingID(TrackingIds(t.tracking))), cart)
      && t'.orders == t.orders + [RentalOrderRow(o.rentalID, user, TotalCopies(cart), now, due)]
      && t'.tracking == t.tracking + [TrackingRow(o.trackingID, o.rentalID, "Order Received", "Los Angeles,CA", "USPS", now)]
      && |t'.lines| == |t.lines| + |cart|
      && t'.lines[..|t.lines|] == t.lines
      && forall i :: 0 <= i < |cart| ==> t'.lines[|t.lines| + i] == GameInOrderRow(o.rentalID, cart[i].gameID, cart[i].copies)
  {
    var (o, t') := Persist(t, user, cart, now, due);
    assert t'.lines == t.lines + OrderLines(o.rentalID, cart);
  }

  const GamesInOrderInsert: string := "INSERT INTO GamesInOrder VALUES"

  /** One `('<rentalID>', '<gameID>', <copies>)` tuple of the GamesInOrder statement. */
  function LineTuple(rentalID: string, line: CartLine): string {
    "('" + rentalID + "', '" + line.gameID + "', " + IntToString(line.copies) + ")"
  }

  function LineTuples(rentalID: string, cart: seq<CartLine>): (tuples: seq<string>)
    ensures |tuples| == |cart| && forall i :: 0 <= i < |cart| ==> tuples[i] == LineTuple(rentalID, cart[i])
  {
    seq(|cart|, i requires 0 <= i < |cart| => LineTuple(rentalID, cart[i]))
  }

  function GamesInOrderStatement(rentalID: string, cart: seq<CartLine>): string {
    GamesInOrderInsert + Join(LineTuples(rentalID, cart), ", ")
  }

  /**
   * The statement is the INSERT header followed by the cart's tuples in
   * order: tuple `i` sits at its offset, each but the last is followed by
   * ", ", and the last one ends the statement.
   */
  lemma StatementLayout(rentalID: string, cart: seq<CartLine>, i: nat)
    requires i < |cart|
    ensures var s := GamesInOrderStatement(rentalID, cart);
      var at := |GamesInOrderInsert| + Offset(LineTuples(rentalID, cart), ", ", i);
      var tuple := LineTuple(rentalID, cart[i]);
      && GamesInOrderInsert <= s
      && at + |tuple| <= |s|
      && s[at..at + |tuple|] == tuple
      && (i + 1 < |cart| ==> at + |tuple| + 2 <= |s| && s[at + |tuple|..at + |tuple| + 2] == ", ")
      && (i + 1 == |cart| ==> at + |tuple| == |s|)
  {
    var tuples := LineTuples(rentalID, cart);
    JoinSegments(tuples, ", ", i);
    SliceAfterPrefix(GamesInOrderInsert, Join(tuples, ", "));
  }

  lemma SliceAfterPrefix(h: string, j: string)
    ensures forall a, b :: 0 <= a <= b <= |j| ==> (h + j)[|h| + a..|h| + b] == j[a..b]
  {
  }
}

=== FILE: profile.dfy ===
/**
 * Account creation (CreateUser) and the favourite-games update
 * (changeFavoriteGames) as functions of the Users table and the console lines.
 */
module Profile {
  import opened Wrappers
  import opened JavaText
  import opened Validation
  import opened Console

  /** A Users row; `favGames` is NULL until the user sets it. */
  datatype UserRow = UserRow(
    login: string, password: string, role: string, favGames: Option<string>,
    phoneNum: string, numOverDueGames: int)

  const CountryCode: string := "+1-"

  /**
   * CreateUser: re-prompt for a username until one of at most 50 characters
   * is not taken, for a password until one is shorter than 30 characters, for
   * a phone number until one has the DDD-DDD-DDDD shape; then the new
   * customer row. None when the input ends first (the next `length()` or the
   * phone validator dereferences the null line and the handler returns).
   */
  function Register(users: map<string, UserRow>, input: seq<string>): Option<UserRow> {
    match NextAccepted(input, 0, UsernamePrompt(users.Keys))
    case None => None
    case Some(u) =>
      match NextAccepted(input, u + 1, PasswordPrompt)
      case None => None
      case Some(p) =>
        match NextAccepted(input, p + 1, PhonePrompt)
        case None => None
        case Some(ph) => Some(UserRow(input[u], input[p], "customer", None, CountryCode + input[ph], 0))
  }

  /**
   * The lines CreateUser keeps: `u` is the first line the username gate
   * accepts, `p` the first later line the password gate accepts and `ph` the
   * first line after that of the phone shape; the row stores those lines.
   */
  predicate TypedAccount(taken: set<string>, input: seq<string>, u: nat, p: nat, ph: nat, row: UserRow) {
    && u < p < ph < |input|
    && (forall l :: 0 <= l < u ==> !UsernameAccepted(taken, input[l]))
    && UsernameAccepted(taken, input[u])
    && (forall l :: u < l < p ==> !PasswordAccepted(input[l]))
    && PasswordAccepted(input[p])
    && (forall l :: p < l < ph ==> !PhoneShape(input[l]))
    && PhoneShape(input[ph])
    && row.login == input[u] && row.password == input[p] && row.phoneNum == CountryCode + input[ph]
  }

  /**
   * A registered row is a new login of at most 50 characters, a password of
   * at most 29 characters (the loop rejects 30), a `+1-` phone number of the
   * checked shape, the customer role, no favourite games and no overdue games;
   * login, password and phone are the lines TypedAccount names.
   */
  lemma RegisteredRow(users: map<string, UserRow>, input: seq<string>)
    requires Register(users, input).Some?
    ensures var row := Register(users, input).value;
      && row.login !in users && |row.login| <= 50
      && |row.password| <= 29
      && |row.phoneNum| == 15 && CountryCode <= row.phoneNum && PhoneShape(row.phoneNum[3..])
      && row.role == "customer" && row.favGames == None && row.numOverDueGames == 0
      && exists u, p, ph :: TypedAccount(users.Keys, input, u, p, ph, row)
  {
    var row := Register(users, input).value;
    var u := NextAccepted(input, 0, UsernamePrompt(users.Keys)).value;
    var p := NextAccepted(input, u + 1, PasswordPrompt).value;
    var ph := NextAccepted(input, p + 1, PhonePrompt).value;
    assert row.phoneNum[3..] == input[ph];
    assert TypedAccount(users.Keys, input, u, p, ph, row);
  }

  /**
   * The games changeFavoriteGames reads: `n` lines after the count line, where
   * a read past the end of input is null and is appended as "null".
   */
  function EnteredGames(input: seq<string>, n: int): (games: seq<string>)
    ensures |games| == if n > 0 then n else 0
  {
    seq(if n > 0 then n else 0, i requires 0 <= i => if 1 + i < |input| then input[1 + i] else "null")
  }

  /**
   * changeFavoriteGames: parse the count (no validator here: a bad count makes
   * parseInt throw and nothing is updated), then join the games with ", ".
   */
  function FavoriteGames(input: seq<string>): (games: Option<string>)
    ensures games.Some? <==> input != [] && ParseInt(input[0]).Some?
  {
    if input == [] then None
    else match ParseInt(input[0])
      case None => None
      case Some(n) => Some(Join(EnteredGames(input, n), ", "))
  }

  /**
   * The stored text lists the entered games in order, each at its offset and
   * separated by ", ", with nothing after the last; a count of zero or less
   * stores the empty string.
   */
  lemma FavoriteGamesEntries(input: seq<string>, i: nat)
    requires FavoriteGames(input).Some?
    ensures var n := ParseInt(input[0]).value;
      var text := FavoriteGames(input).value;
      var games := EnteredGames(input, n);
      && (n <= 0 ==> text == "")
      && (i < n ==>
            && games[i] == (if 1 + i < |input| then input[1 + i] else "null")
            && Offset(games, ", ", i) + |games[i]| <= |text|
            && text[Offset(games, ", ", i)..Offset(games, ", ", i) + |games[i]|] == games[i]
            && (i + 1 < n ==> Offset(games, ", ", i + 1) == Offset(games, ", ", i) + |games[i]| + 2 <= |text| &&
                              text[Offset(games, ", ", i) + |games[i]|..Offset(games, ", ", i + 1)] == ", ")
            && (i + 1 == n ==> |text| == Offset(games, ", ", i) + |games[i]|))
  {
    var n := ParseInt(input[0]).value;
    if i < n {
      JoinSegments(EnteredGames(input, n), ", ", i);
    }
  }
}

=== FILE: validation.dfy ===
/**
 * The console's input validators: phone numbers, digit strings, game IDs
 * checked against the catalog, and the username and password gates applied
 * when an account is created.
 */
module Validation {
  import opened JavaText

  /** `DDD-DDD-DDDD`: twelve characters, dashes at 3 and 7, digits elsewhere. */
  predicate PhoneShape(s: string) {
    && |s| == 12
    && s[3] == '-'
    && s[7] == '-'
    && forall i :: 0 <= i < 12 && i != 3 && i != 7 ==> IsDigit(s[i])
  }

  /** validatePhoneNumber: a scan of the twelve positions that stops at the first bad one. */
  method ValidatePhoneNumber(phone: string) returns (ok: bool)
    ensures ok <==> PhoneShape(phone)
  {
    if |phone| == 12 {
      for i := 0 to 12
        invariant forall j :: 0 <= j < i ==> if j == 3 || j == 7 then phone[j] == '-' else IsDigit(phone[j])
      {
        if i == 3 || i == 7 {
          if phone[i] != '-' {
            return false;
          }
        } else {
          if !IsDigit(phone[i]) {
            return false;
          }
        }
      }
      return true;
    }
    return false;
  }

  /** What validateInteger accepts: a non-empty string of decimal digits. */
  predicate IsDigitString(s: string) {
    s != [] && AllDigits(s)
  }

  /** validateInteger: rejects the empty string, then scans for a non-digit. */
  method ValidateInteger(s: string) returns (ok: bool)
    ensures ok <==> IsDigitString(s)
  {
    if s != [] {
      for j := 0 to |s|
        invariant forall k :: 0 <= k < j ==> IsDigit(s[k])
      {
        if !IsDigit(s[j]) {
          return false;
        }
      }
      return true;
    }
    return false;
  }

  lemma ValidateIntegerExamples()
    ensures !IsDigitString("") && !IsDigitString("3a") && !IsDigitString("-3")
    ensures IsDigitString("0") && IsDigitString("007")
  {
    assert !IsDigit("3a"[1]);
    assert !IsDigit("-3"[0]);
  }

  const GameIDPrefix: string := "game"

  /** The format part of validateGameID: eight characters starting with `game`. */
  predicate GameIDFormat(id: string) {
    |id| == 8 && GameIDPrefix <= id
  }

  /**
   * validateGameID: the length, then the prefix, and only then the catalog
   * lookup (the `SELECT EXISTS` query), modelled as membership in the set of
   * catalog game IDs.
   */
  function ValidateGameID(catalog: set<string>, gameID: string): bool {
    if |gameID| == 8 then
      if GameIDPrefix <= gameID then gameID in catalog else false
    else false
  }

  /** An ID is accepted exactly when it has the format and is in the catalog. */
  lemma GameIDAccepted(catalog: set<string>, gameID: string)
    ensures ValidateGameID(catalog, gameID) <==> GameIDFormat(gameID) && gameID in catalog
  {
  }

  /** A badly formatted ID is rejected whatever the catalog holds. */
  lemma GameIDFormatCheckedFirst(catalog: set<string>, gameID: string)
    requires !GameIDFormat(gameID)
    ensures !ValidateGameID(catalog, gameID)
    ensures forall other: set<string> :: ValidateGameID(other, gameID) == ValidateGameID(catalog, gameID)
  {
  }

  /** The last four characters are not required to be digits. */
  lemma GameIDSuffixUnchecked()
    ensures ValidateGameID({"gameABCD"}, "gameABCD")
    ensures !AllDigits("gameABCD"[4..])
  {
    assert !IsDigit("gameABCD"[4]);
  }

  /** The username gate of CreateUser: at most 50 characters and not yet taken. */
  predicate UsernameAccepted(taken: set<string>, login: string) {
    |login| <= 50 && login !in taken
  }

  /** The password gate of CreateUser: the loop re-prompts while the length is 30 or more. */
  predicate PasswordAccepted(password: string) {
    |password| < 30
  }
}

=== FILE: wrappers.dfy ===
/** The optional value used wherever the Java code can yield `null`. */
module Wrappers {

  datatype Option<+T> = None | Some(value: T)
}
